=== FILE: README.md ===
# Chamber controller: setpoint serialiser, telemetry decoder and alerts

This project models the pure logic inside `ChamberController_Interface.py`.
That script drives an environmental test chamber over a serial port. The
model covers six pieces:

- **Setpoint serialiser** (`send_to_arduino`). The Send button reads three
  columns of entry texts: temperature, humidity and hold time. Each column
  drops its empty entries and parses the rest with `float()`. Then row i
  pairs the i-th surviving value of each column. Each row is rendered as
  `t,h,hold` and the rows are joined with newlines. Module `Setpoints`.
- **Telemetry frame decoder** (start of `animate`). One received line is
  ASCII-decoded and split on commas. Field 0 is the air temperature, rounded
  to hundredths. Field 2 is the relative humidity. Modules `Telemetry`,
  `Text` and `Floats`.
- **Sample history and plot window**. There are two parallel series that
  only ever grow. Each plot's x-range is `[n - 60, n]` for a series of n
  samples. Module `History`.
- **Daily log name**. This is `ChamberData<YYYY-MM-DD>.csv` for the local
  date. Module `DailyLog`.
- **Alert decision**. Message1 (high) is chosen when the rounded air
  temperature is above 400. Message2 (low) is chosen when it is below -150.
  The comparison is made again for every sample. Module `Alerts`.
- **Port discovery**. At start-up a loop over the serial ports looks for the
  controller's CH340 bridge. It is modelled for what it does to the global
  `port`, which is also the SMTP port. Module `Ports`.

Module `Monitor` puts them together. `Tick` is one call of `animate` as the
script intends it, with `port` holding 587, and `Run` is a sequence of such
calls. `TickWith` and `RunWith` take the value `port` actually holds, which
gives the script as written (see Findings).

Python's `float(text)` and `str(x)` are not defined here. Every operation
that needs them takes a `NumberSyntax` value holding both functions. Where a
proof depends on a property of theirs, that property is an explicit
precondition:

- `Separatorless`: a rendering never contains `,` or a newline.
- `ReprRoundTrips`: a value re-parses from its own rendering.

A Python float is `Float = Finite(real) | PosInf | NegInf | NaN`, so
comparisons against infinities and NaN follow Python. `round(x, 2)` is
modelled exactly. Finite values go to the nearest multiple of 0.01 and ties
go to the even neighbour, which is what Python does to the exact binary
value.

Behaviour of the code worth knowing, all proved here:

- **No alert is ever delivered as written.** The serial-port loop reuses the
  name `port`. Once the controller has been found, `port` holds a port record
  instead of 587. The first sample out of range is appended, and then its
  tick raises while opening the SMTP connection
  (`RunAsWrittenSendsNothing`, `RunAsWrittenRecords`, `RunAsWrittenStops`).
- **Alerts repeat once the port is fixed.** With `port` at 587, an excursion
  lasting k samples sends k messages. No state is kept between samples
  (`SustainedHighRepeats`, `AlertsOverConcat`, `RunWithSmtpPortIsRun`).
- **Thresholds on the raw reading.** Because of rounding, the high alert
  fires exactly for raw readings above 400.005. The low alert fires exactly
  below -150.005 (`AlertsForRawReading`).
- **Message text.** The text speaks of 350F and -100F, but the comparisons
  use 400 and -150. The model follows the comparisons.
- **Columns are filtered separately.** Empty cells are removed from each
  column on its own, before rows are paired. So a blank humidity cell shifts
  every later humidity up by one row (`PlanPairsFilteredColumns`).
- **Surplus entries.** Extra numeric humidity or hold-time entries are
  ignored (`PlanIgnoresSurplusHumidities`). Extra entries that are not
  numeric still raise ValueError.
- **Field count.** A frame needs at least three fields. Fields after the
  third are ignored (`DecodeIgnoresOtherFields`). There is no upper limit on
  the field count and no exact schema check.
- **Unbounded history.** The history is never trimmed. Only the plot range
  limits what is shown (`WindowShowsLatest`). The log file is rewritten in
  full from the whole history on every tick. Nothing is appended per day.

## Model

| member | source | states |
|---|---|---|
| Text.Split | ChamberController_Interface.py:150 | `str.split(',')` always yields at least one piece, no piece contains the separator, and joining the pieces gives back the line |
| Text.SplitJoin | ChamberController_Interface.py:72 | a non-empty list of separator-free pieces, joined and split again, gives back exactly those pieces |
| Text.SplitAtFirstSeparator | ChamberController_Interface.py:150 | splitting stops at the first separator: `p + sep + rest` splits into `p` followed by the pieces of `rest` |
| Text.JoinLastChar | ChamberController_Interface.py:72 | `'\n'.join(rows)` whose last row is non-empty and separator-free has no trailing separator |
| Text.JoinAvoids | ChamberController_Interface.py:71 | a character other than the separator appears in a join only if it appears in a piece, so rows hold no newline |
| Floats.RoundHalfEven | ChamberController_Interface.py:151 | the nearest integer, within 1/2, with ties going to the even neighbour |
| Floats.Round2 | ChamberController_Interface.py:151 | `round(x, 2)` lands on a multiple of 0.01 within 0.005 of a finite `x`, and on an exact tie takes the even number of hundredths; infinities and NaN pass through unchanged |
| Floats.RoundHalfEvenAbove | ChamberController_Interface.py:151 | a value rounds to more than 40000 exactly when it exceeds 40000.5 |
| Floats.RoundHalfEvenBelow | ChamberController_Interface.py:151 | a value rounds to less than -15000 exactly when it is below -15000.5 |
| Floats.Round2Above400 | ChamberController_Interface.py:183 | `round(x, 2) > 400` exactly when `x > 400.005` |
| Floats.Round2Below150 | ChamberController_Interface.py:188 | `round(x, 2) < -150` exactly when `x < -150.005` |
| Setpoints.Filled | ChamberController_Interface.py:66-68 | `[e for e in col if e]` keeps every non-empty entry, only entries of the column, none empty |
| Setpoints.FilledCounts | ChamberController_Interface.py:66-68 | the filter keeps each non-empty entry exactly as often as it occurs and drops every empty one, so its length is the column length minus the number of empty entries |
| Setpoints.FilledConcat | ChamberController_Interface.py:66-68 | dropping empty entries works piece by piece on a split column |
| Setpoints.ParseColumn | ChamberController_Interface.py:66-68 | succeeds exactly when every non-empty entry parses, giving one value per non-empty entry in order; otherwise names the first non-empty entry that `float()` rejects |
| Setpoints.ParseColumnOfFilled | ChamberController_Interface.py:66-68 | where the empty entries sit does not change a column's parse |
| Setpoints.ParseColumnConcat | ChamberController_Interface.py:66-68 | a column made of two parts parses to both parts' values in order, or fails at the first bad entry |
| Setpoints.Plan | ChamberController_Interface.py:63-71 | succeeds exactly when all three columns are numeric and the filtered humidity and hold-time columns are at least as long as the filtered temperatures; row i then holds the i-th filtered value of each column; errors come in evaluation order: ValueError by column order, naming the first entry of that column `float()` rejects, then IndexError at row min(humidities, hold times), humidity first on a tie |
| Setpoints.PlanPairsFilteredColumns | ChamberController_Interface.py:66-71 | the table behaves exactly like its three filtered columns, so each column drops its empty cells on its own before rows are paired |
| Setpoints.PlanIgnoresSurplusHumidities | ChamberController_Interface.py:67-71 | numeric humidity entries beyond the temperature count change nothing |
| Setpoints.PlanIgnoresSurplusHoldTimes | ChamberController_Interface.py:68-71 | numeric hold-time entries beyond the temperature count change nothing |
| Setpoints.Encode | ChamberController_Interface.py:72 | the payload is empty exactly when there are no setpoints |
| Setpoints.Serialize | ChamberController_Interface.py:62-72 | writes a payload exactly when the plan succeeds and otherwise raises the plan's error before any write; the payload is empty exactly when the filtered temperature column is empty |
| Setpoints.RenderRowFields | ChamberController_Interface.py:71 | a row splits on commas into the temperature, humidity and hold-time renderings, in that order, and contains no newline |
| Setpoints.SerializeLayout | ChamberController_Interface.py:69-72 | a non-empty payload has one line per filtered temperature, in order, each line three comma-separated renderings, and no trailing newline |
| Setpoints.DecodeRenderedRows | ChamberController_Interface.py:71-72 | rendered rows read back to the setpoints they came from |
| Setpoints.SerializeRoundTrip | ChamberController_Interface.py:63-72 | splitting the payload on newlines and commas and parsing the fields gives back exactly the planned setpoints, including the empty payload for an empty temperature column |
| Telemetry.DecodeAscii | ChamberController_Interface.py:148 | `decode("ascii")` succeeds exactly when every byte is below 128, mapping each byte to the character with that code |
| Telemetry.DecodeText | ChamberController_Interface.py:150-153 | succeeds exactly when field 0 parses, there are at least three fields and field 2 parses, giving the rounded field 0 and field 2; ValueError on field 0 comes first, then IndexError exactly when field 0 parses and there are fewer than three fields, then ValueError on field 2 exactly when the rest holds and field 2 does not parse |
| Telemetry.DecodeFrame | ChamberController_Interface.py:148-153 | fails with UnicodeDecodeError exactly when some byte is 128 or above; otherwise the decoded text goes through the text steps unchanged |
| Telemetry.DecodeWellFormed | ChamberController_Interface.py:150-153 | `air,material,humidity[,...]` decodes to the rounded air temperature and the humidity |
| Telemetry.DecodeIgnoresOtherFields | ChamberController_Interface.py:150-153 | two frames that agree on fields 0 and 2 decode alike, whatever field 1 and later fields hold |
| Telemetry.DecodeShortFrame | ChamberController_Interface.py:150-153 | a frame with a numeric field 0 and fewer than three fields fails with IndexError |
| History.Empty | ChamberController_Interface.py:131-142 | both series start empty and aligned |
| History.Append | ChamberController_Interface.py:154-156 | appending keeps every earlier sample, adds exactly one value at the end of each series, and keeps the series aligned |
| History.XLimits | ChamberController_Interface.py:161 | of the samples 0 .. n-1, exactly the last 60 fall inside the plot range, which spans 60 and ends at the sample count |
| History.ShownSuffix | ChamberController_Interface.py:162 | when the range reaches the last sample, the visible samples are the suffix from the clamped lower bound |
| History.WindowShowsLatest | ChamberController_Interface.py:174-175 | each plot shows exactly the last 60 samples, or all of them while there are fewer |
| DailyLog.Pad | ChamberController_Interface.py:169 | zero-padded decimal text of exactly the requested width, digits only |
| DailyLog.DigitsValueOfPad | ChamberController_Interface.py:169 | reading the padded digits gives back the number |
| DailyLog.PadOfDigitsValue | ChamberController_Interface.py:169 | padding the value of a digit string gives back the string |
| DailyLog.LogName | ChamberController_Interface.py:168-170 | the file name has 25 characters: `ChamberData`, a four-digit year, `-`, a two-digit month, `-`, a two-digit day, `.csv` |
| DailyLog.LogNameRoundTrip | ChamberController_Interface.py:168-170 | the date can be read back from the file name |
| DailyLog.ParseLogNameSound | ChamberController_Interface.py:168-170 | any name that reads as a date is exactly that date's file name |
| DailyLog.LogNameInjective | ChamberController_Interface.py:168-170 | two dates share a log file exactly when they are the same day |
| Alerts.AlertsFor | ChamberController_Interface.py:183-192 | the high message is sent exactly when the temperature is above 400, the low one exactly when it is below -150, and never both |
| Alerts.AlertsFollowClassify | ChamberController_Interface.py:183-192 | the two `if` statements act as a single classifier returning one side or none |
| Alerts.AlertsForRawReading | ChamberController_Interface.py:151-192 | measured on the unrounded reading, the high alert fires exactly above 400.005 and the low alert exactly below -150.005 |
| Alerts.AlertsOver | ChamberController_Interface.py:183-192 | a run of samples sends at most one alert per sample, and a run of one sample sends exactly its own alerts |
| Alerts.AlertsOverConcat | ChamberController_Interface.py:183-192 | no state is carried between samples: the alerts of two runs back to back are each run's alerts in turn |
| Alerts.AlertsOverSingle | ChamberController_Interface.py:183-192 | a run of one sample sends exactly that sample's alerts, so with AlertsOverConcat every run's alerts are fixed sample by sample |
| Alerts.AlertsOverClassified | ChamberController_Interface.py:183-192 | a run sends one alert per out-of-range sample, in order, each naming the side its sample lies outside: message1 above 400, message2 below -150 |
| Alerts.SustainedHighRepeats | ChamberController_Interface.py:183-187 | a sustained excursion above 400 sends the high message once per sample |
| Alerts.Qualifying | ChamberController_Interface.py:183-192 | the selected samples are exactly those outside the alert range, each as often as it occurs |
| Alerts.AlertsCountQualifying | ChamberController_Interface.py:183-192 | the number of alerts equals the number of samples outside the range |
| Alerts.BriefExcursionSendsTwice | ChamberController_Interface.py:183-187 | the readings 399, 401, 402, 399 send the high message twice |
| Monitor.Tick | ChamberController_Interface.py:146-192 | with `port` holding 587 as intended, a tick succeeds exactly when the frame decodes and otherwise raises its error; on success it appends one sample to each series (keeping them aligned), sets the range to `[n-60, n]`, names the log for today and sends the alerts of the rounded air temperature |
| Monitor.Run | ChamberController_Interface.py:194 | repeated ticks add at most one sample per frame |
| Monitor.Decoded | ChamberController_Interface.py:148-153 | reading i is the decoding of frame i, and the readings stop only at the end of the frames or at a frame that fails to decode |
| Monitor.AppendAll | ChamberController_Interface.py:154-156 | appending k readings lengthens each series by k |
| Monitor.RunAppendsDecoded | ChamberController_Interface.py:154-156 | the history after a run is the starting history with the decoded readings appended in arrival order |
| Monitor.AppendAllExtends | ChamberController_Interface.py:154-156 | appended readings extend each series by their values, in order, and earlier samples stay as they were |
| Monitor.RunAlertsPerSample | ChamberController_Interface.py:183-192 | a run's alerts are exactly those of its decoded air temperatures, taken one sample at a time |
| Monitor.RunStopsAtFirstFailure | ChamberController_Interface.py:148-153 | a run ends early exactly when some frame fails, and then it reports the first failing frame's error |
| Monitor.RunKeepsAligned | ChamberController_Interface.py:154-156 | the two series keep equal length through any run |
| Ports.Scan | ChamberController_Interface.py:51-59 | the controller is found exactly when some port's description contains `USB-SERIAL CH340`; `port` then holds the first such port, and otherwise the last port listed |
| Ports.Discover | ChamberController_Interface.py:44-59 | with no ports, `port` stays 587 and there is no serial connection; whenever the controller is found, `port` no longer holds a number |
| Ports.Connectable | ChamberController_Interface.py:184-189 | `smtplib.SMTP(smtp_server, port)` opens a connection only when `port` holds a number; a port record raises in the address lookup |
| Ports.ConnectableOnlyWithoutPorts | ChamberController_Interface.py:44-59 | after discovery, `port` can still open an SMTP connection exactly when no serial port was listed, and then no serial connection exists |
| Ports.ConnectedMeansPortRebound | ChamberController_Interface.py:51-57 | once the serial connection exists, `port` holds the controller's port record |
| Ports.SingleControllerRebindsPort | ChamberController_Interface.py:51-57 | a single CH340 port on COM3 is found and left in `port` |
| Monitor.TickWith | ChamberController_Interface.py:146-192 | a tick raises on a bad frame as before; on a good frame with an alert due it raises exactly when `port` is not a number, after the samples were appended; otherwise it is the intended tick |
| Monitor.RunWith | ChamberController_Interface.py:146-194 | ticks with the given value of `port`, in arrival order until the first exception, adding at most one sample per frame; a failed send ends the run with the history that already holds the sample that raised |
| Monitor.RunWithSmtpPortIsRun | ChamberController_Interface.py:183-192 | with `port` at 587, a run has the intended run's history, alerts and stopping error |
| Monitor.RunAsWrittenSendsNothing | ChamberController_Interface.py:184-189 | with `port` holding a port record, a run delivers no alert, and both series keep every earlier sample and only grow |
| Monitor.RunAsWrittenStopsAtExcursion | ChamberController_Interface.py:183-192 | with `port` holding a port record, a run appends in-range samples and stops at the first sample out of range, after appending it, with that sample's alert as the error |
| Monitor.Recorded | ChamberController_Interface.py:183-192 | the readings up to and including the first one out of range, or all of them when none is |
| Monitor.RunAsWrittenRecords | ChamberController_Interface.py:154-192 | with `port` holding a port record, a run's history is the start with the decoded readings appended, in arrival order, up to and including the first out-of-range one; it stops with a failed send exactly when such a reading arrives |
| Monitor.RunAsWrittenStops | ChamberController_Interface.py:148-192 | with `port` holding a port record, a run reaches the last frame exactly when every frame decodes and none is out of range, and a frame that fails to decode still ends it with that frame's error |
| Monitor.ExcursionRaisesAsWritten | ChamberController_Interface.py:183-192 | once the controller is found, a frame out of range is recorded and then raises as written, while with port 587 its alert is sent |

## Left out

- The tkinter window, entry table and button wiring are GUI only. The model
  takes the three columns' entry texts as sequences of any length. The
  window itself has 10 rows.
- Opening the serial connection is device I/O. Discovery is modelled only
  for the values it leaves in `port` and `ser`. The NameError that
  `send_to_arduino` and `animate` raise when no CH340 port was found is not
  modelled. `ser.readline()` becomes the `line` argument. `ser.write(...)`
  becomes the returned payload. The `.encode()` of that payload is not
  modelled.
- The matplotlib axes, plotting and styling calls are rendering. Only the
  `set_xlim` arithmetic and the samples that range shows are modelled.
- Building the pandas DataFrame and `to_csv` are file I/O. Only the file
  name is modelled. The written table is the whole current history.
- SMTP, TLS, login and the message texts are network I/O. The model keeps
  the choice between message1 and message2, and whether the connection can
  be opened with the value `port` holds.
- Tick: with `port` at 587, assumes the SMTP exchange and `to_csv` succeed.
  `TickWith` models the failure to connect that the rebound `port` causes.
  If `to_csv` raises, the real tick ends after the samples were appended and
  before any alert.
- Tick: the global `data_temp` keeps the rounded air temperature of a frame
  whose field 2 then fails. Nothing reads it before the next assignment, so
  the model drops it.
- Run: ends at the first frame that fails to decode, and `RunWith` also at
  the first failed send. The exception leaves
  the animation callback, and the model does not assume the timer calls
  `animate` again.
- Round2: returns the exact multiple of 0.01. Python then returns the
  nearest double to it. Comparisons with 400 and -150 are unaffected.
- Float: does not represent binary precision or the sign of zero. `float()`
  and `str()` are the caller-supplied `NumberSyntax` functions. Their
  separator-freedom and round-trip properties are assumed as preconditions
  and not derived.
- LogName: renders every year with four digits, zero-padded, as Python's
  documentation gives `%Y`. Some C libraries print years below 1000 without
  padding. The wall clock becomes the `today` argument.

## Findings

| source | as written | input that shows it | evidently intended | confidence | as-written member | corrected member |
|---|---|---|---|---|---|---|
| ChamberController_Interface.py:51 | `for port in available_ports:` rebinds the global `port` that line 26 set to 587. Lines 184 and 189 then call `smtplib.SMTP(smtp_server, port)` with a serial-port record, which cannot be used as a TCP port, so the call raises. | `comports()` lists one port described as `USB-SERIAL CH340 (COM3)`, then a frame `401,0,40` arrives. The sample is appended and logged, then the tick raises and no mail goes out. | Connect on port 587 and send message1 (or message2 below -150). | not executed; high, since Python's address lookup accepts only a number or a string as the port | Monitor.RunAsWrittenSendsNothing | Monitor.RunWithSmtpPortIsRun |

=== FILE: alerts.dfy ===
/** The e-mail alert checks at the end of each tick: message1 (the high
    alert) when the rounded air temperature is above 400, message2 (the low
    alert) when it is below -150, evaluated afresh for every sample. */
module Alerts {
  import opened Results
  import opened Floats

  /** Which of the two fixed messages is sent: message1 or message2. */
  datatype Alert = High | Low

  const HighLimit: real := 400.0
  const LowLimit: real := -150.0

  /** The two independent `if` statements of one tick, in order: the
      messages sent for air temperature `t`. */
  function AlertsFor(t: Float): (sent: seq<Alert>)
    ensures |sent| <= 1
    ensures High in sent <==> Greater(t, HighLimit)
    ensures Low in sent <==> Less(t, LowLimit)
  {
    (if Greater(t, HighLimit) then [High] else []) + (if Less(t, LowLimit) then [Low] else [])
  }

  /** The side of the range `t` lies outside, if any; NaN lies on neither. */
  function Classify(t: Float): (side: Option<Alert>)
  {
    match t
    case Finite(v) => if v > HighLimit then Some(High) else if v < LowLimit then Some(Low) else None
    case PosInf => Some(High)
    case NegInf => Some(Low)
    case NaN => None
  }

  /** The two `if` statements act as one classifier: a sample sends the one
      message of the side it lies outside, and nothing inside the range. */
  lemma AlertsFollowClassify(t: Float)
    ensures AlertsFor(t) == match Classify(t) case Some(a) => [a] case None => []
  {
  }

  /** In terms of the raw reading before `round(x, 2)`: the high alert fires
      exactly above 400.005 and the low alert exactly below -150.005. */
  lemma AlertsForRawReading(x: Float)
    ensures High in AlertsFor(Round2(x)) <==> Greater(x, 400.005)
    ensures Low in AlertsFor(Round2(x)) <==> Less(x, -150.005)
  {
    Round2Above400(x);
    Round2Below150(x);
  }

  /** The alerts sent over a run of samples, in order. */
  function AlertsOver(temps: seq<Float>): (sent: seq<Alert>)
    ensures |sent| <= |temps|
    ensures |temps| == 1 ==> sent == AlertsFor(temps[0])
  {
    if |temps| == 0 then []
    else AlertsFor(temps[0]) + AlertsOver(temps[1..])
  }

  /** No state is kept between samples: the alerts of two consecutive runs
      are the alerts of each run, one after the other. */
  lemma {:induction false} AlertsOverConcat(s: seq<Float>, t: seq<Float>)
    ensures AlertsOver(s + t) == AlertsOver(s) + AlertsOver(t)
    decreases |s|
  {
    if |s| == 0 {
      assert s + t == t;
    } else {
      assert (s + t)[0] == s[0] && (s + t)[1..] == s[1..] + t;
      AlertsOverConcat(s[1..], t);
    }
  }

  /** There is no suppression: a sustained excursion above 400 sends the high
      message once for every sample of it. */
  lemma {:induction false} SustainedHighRepeats(temps: seq<Float>)
    requires forall i :: 0 <= i < |temps| ==> Greater(temps[i], HighLimit)
    ensures AlertsOver(temps) == seq(|temps|, _ => High)
    decreases |temps|
  {
    if |temps| > 0 {
      SustainedHighRepeats(temps[1..]);
      assert [High] + seq(|temps| - 1, _ => High) == seq(|temps|, _ => High);
    }
  }

  /** A run of one sample sends exactly that sample's alerts. */
  lemma AlertsOverSingle(t: Float)
    ensures AlertsOver([t]) == AlertsFor(t)
  {
    assert [t][1..] == [];
  }

  /** The alerts of a run, one per sample outside the range and in order,
      each naming the side that sample lies outside. */
  lemma {:induction false} AlertsOverClassified(temps: seq<Float>)
    ensures |AlertsOver(temps)| == |Qualifying(temps)|
    ensures forall i :: 0 <= i < |AlertsOver(temps)| ==>
              Classify(Qualifying(temps)[i]) == Some(AlertsOver(temps)[i])
    decreases |temps|
  {
    if |temps| > 0 {
      AlertsOverClassified(temps[1..]);
      AlertsFollowClassify(temps[0]);
      var rest, q := AlertsOver(temps[1..]), Qualifying(temps[1..]);
      if Classify(temps[0]).Some? {
        assert AlertsOver(temps) == [Classify(temps[0]).value] + rest;
        assert Qualifying(temps) == [temps[0]] + q;
      } else {
        assert AlertsOver(temps) == rest;
        assert Qualifying(temps) == q;
      }
    }
  }

  /** Every sample outside the range adds exactly one alert to the run. */
  lemma {:induction false} AlertsCountQualifying(temps: seq<Float>)
    ensures |AlertsOver(temps)| == |Qualifying(temps)|
    decreases |temps|
  {
    if |temps| > 0 {
      AlertsCountQualifying(temps[1..]);
    }
  }

  /** The samples lying outside the range, in order. */
  function Qualifying(temps: seq<Float>): (out: seq<Float>)
    ensures forall i :: 0 <= i < |out| ==> Classify(out[i]).Some?
    ensures forall i :: 0 <= i < |temps| && Classify(temps[i]).Some? ==> temps[i] in out
    ensures forall x :: Classify(x).Some? ==> multiset(out)[x] == multiset(temps)[x]
    ensures forall x :: Classify(x).None? ==> multiset(out)[x] == 0
  {
    if |temps| == 0 then []
    else
      assert temps == [temps[0]] + temps[1..];
      (if Classify(temps[0]).Some? then [temps[0]] else []) + Qualifying(temps[1..])
  }

  /** The example of a brief excursion above 400: readings 399, 401, 402, 399
      send the high message twice, at 401 and again at 402. */
  lemma BriefExcursionSendsTwice()
    ensures AlertsOver([Finite(399.0), Finite(401.0), Finite(402.0), Finite(399.0)]) == [High, High]
  {
    var s := [Finite(399.0), Finite(401.0), Finite(402.0), Finite(399.0)];
    assert s[1..][1..][1..][1..] == [];
  }
}

=== FILE: dailylog.dfy ===
/** The name of the CSV file the history is written to on each tick:
    `ChamberData` + the local date as `%Y-%m-%d` + `.csv`. */
module DailyLog {
  import opened Results

  /** A calendar date as `datetime` holds it. */
  datatype Date = Date(year: int, month: int, day: int)

  predicate IsLeapYear(y: int)
  {
    y % 4 == 0 && (y % 100 != 0 || y % 400 == 0)
  }

  function DaysInMonth(y: int, m: int): int
  {
    if m == 2 then (if IsLeapYear(y) then 29 else 28)
    else if m == 4 || m == 6 || m == 9 || m == 11 then 30
    else 31
  }

  /** The dates `datetime` can represent: years 1 to 9999 of the proleptic
      Gregorian calendar. */
  predicate ValidDate(d: Date)
  {
    1 <= d.year <= 9999 && 1 <= d.month <= 12 && 1 <= d.day <= DaysInMonth(d.year, d.month)
  }

  type CalendarDate = d: Date | ValidDate(d) witness Date(2023, 4, 5)

  const Prefix: string := "ChamberData"
  const Suffix: string := ".csv"

  function Pow10(k: nat): (p: nat)
    ensures p >= 1
  {
    if k == 0 then 1 else 10 * Pow10(k - 1)
  }

  predicate IsDigit(c: char)
  {
    '0' <= c <= '9'
  }

  predicate AllDigits(s: string)
  {
    forall i :: 0 <= i < |s| ==> IsDigit(s[i])
  }

  /** `n` in decimal, zero-padded on the left to exactly `width` digits. */
  function Pad(n: nat, width: nat): (s: string)
    requires n < Pow10(width)
    ensures |s| == width && AllDigits(s)
  {
    if width == 0 then ""
    else Pad(n / 10, width - 1) + [('0' as int + n % 10) as char]
  }

  /** The number a string of decimal digits denotes. */
  function DigitsValue(s: string): (n: nat)
    requires AllDigits(s)
    ensures n < Pow10(|s|)
  {
    if |s| == 0 then 0
    else DigitsValue(s[..|s| - 1]) * 10 + (s[|s| - 1] as int - '0' as int)
  }

  lemma {:induction false} DigitsValueOfPad(n: nat, width: nat)
    requires n < Pow10(width)
    ensures DigitsValue(Pad(n, width)) == n
    decreases width
  {
    if width > 0 {
      var s := Pad(n, width);
      assert s[..|s| - 1] == Pad(n / 10, width - 1);
      DigitsValueOfPad(n / 10, width - 1);
    }
  }

  lemma {:induction false} PadOfDigitsValue(s: string)
    requires AllDigits(s)
    ensures Pad(DigitsValue(s), |s|) == s
    decreases |s|
  {
    if |s| > 0 {
      var init := s[..|s| - 1];
      PadOfDigitsValue(init);
      var n := DigitsValue(s);
      assert n / 10 == DigitsValue(init);
      assert n % 10 == s[|s| - 1] as int - '0' as int;
      assert init + [s[|s| - 1]] == s;
    }
  }

  /** `now.strftime("%Y-%m-%d")`: four-digit year, two-digit month and day. */
  function DateText(d: CalendarDate): string
  {
    Pad(d.year, 4) + "-" + Pad(d.month, 2) + "-" + Pad(d.day, 2)
  }

  /** `f'ChamberData{date_string}.csv'` */
  function LogName(d: CalendarDate): (name: string)
    ensures |name| == 25
    ensures name[..11] == Prefix && name[21..] == Suffix
    ensures name[15] == '-' && name[18] == '-'
    ensures AllDigits(name[11..15]) && AllDigits(name[16..18]) && AllDigits(name[19..21])
  {
    Prefix + DateText(d) + Suffix
  }

  /** The date a log file name was made from, if it is one. */
  function ParseLogName(name: string): Option<CalendarDate>
  {
    if |name| != 25 || name[..11] != Prefix || name[21..] != Suffix
       || name[15] != '-' || name[18] != '-'
       || !AllDigits(name[11..15]) || !AllDigits(name[16..18]) || !AllDigits(name[19..21])
    then None
    else
      var d := Date(DigitsValue(name[11..15]), DigitsValue(name[16..18]), DigitsValue(name[19..21]));
      if ValidDate(d) then Some(d) else None
  }

  /** The date can be read back from the file name. */
  lemma LogNameRoundTrip(d: CalendarDate)
    ensures ParseLogName(LogName(d)) == Some(d)
  {
    var name := LogName(d);
    assert name[11..15] == Pad(d.year, 4);
    assert name[16..18] == Pad(d.month, 2);
    assert name[19..21] == Pad(d.day, 2);
    DigitsValueOfPad(d.year, 4);
    DigitsValueOfPad(d.month, 2);
    DigitsValueOfPad(d.day, 2);
  }

  /** Every name that reads as a date is exactly the name of that date. */
  lemma ParseLogNameSound(name: string)
    requires ParseLogName(name).Some?
    ensures LogName(ParseLogName(name).value) == name
  {
    var d := ParseLogName(name).value;
    PadOfDigitsValue(name[11..15]);
    PadOfDigitsValue(name[16..18]);
    PadOfDigitsValue(name[19..21]);
    assert name == name[..11] + name[11..15] + "-" + name[16..18] + "-" + name[19..21] + name[21..];
  }

  /** Different days write to different files, the same day to the same file. */
  lemma LogNameInjective(d1: CalendarDate, d2: CalendarDate)
    ensures LogName(d1) == LogName(d2) <==> d1 == d2
  {
    LogNameRoundTrip(d1);
    LogNameRoundTrip(d2);
  }
}

=== FILE: floats.dfy ===
/** Python floats as the chamber script uses them: parsed from text with
    `float()`, printed with `str()`, rounded with `round(x, 2)` and compared
    against constants. */
module Floats {
  import opened Results

  /** A Python float: a finite value, an infinity or NaN. Finite values are
      exact reals; binary precision and the sign of zero are not represented. */
  datatype Float = Finite(value: real) | PosInf | NegInf | NaN

  /** Python's `x > c` for a float `x` and a finite constant `c` (NaN compares false). */
  predicate Greater(x: Float, c: real)
  {
    match x
    case Finite(v) => v > c
    case PosInf => true
    case NegInf => false
    case NaN => false
  }

  /** Python's `x < c` for a float `x` and a finite constant `c` (NaN compares false). */
  predicate Less(x: Float, c: real)
  {
    match x
    case Finite(v) => v < c
    case PosInf => false
    case NegInf => true
    case NaN => false
  }

  /** The text conversions the script calls, supplied by the caller:
      `parse` is `float(text)` (None where Python raises ValueError) and
      `render` is `str(x)`. */
  datatype NumberSyntax = NumberSyntax(parse: string -> Option<Float>, render: Float -> string)

  /** Assumed of `str(x)`: it never contains a comma or a newline. */
  ghost predicate Separatorless(num: NumberSyntax)
  {
    forall x :: ',' !in num.render(x) && '\n' !in num.render(x)
  }

  /** Assumed of `str(x)`: every value `float()` can produce parses back from
      its own rendering. */
  ghost predicate ReprRoundTrips(num: NumberSyntax)
  {
    forall s :: num.parse(s).Some? ==> num.parse(num.render(num.parse(s).value)) == num.parse(s)
  }

  /** `y` rounded to the nearest integer, ties to the even neighbour. */
  function RoundHalfEven(y: real): (n: int)
    ensures -(1.0 / 2.0) <= n as real - y <= 1.0 / 2.0
    ensures n as real - y == 1.0 / 2.0 ==> n % 2 == 0
    ensures y - n as real == 1.0 / 2.0 ==> n % 2 == 0
  {
    var f := y.Floor;
    var d := y - f as real;
    if d < 1.0 / 2.0 then f
    else if d > 1.0 / 2.0 then f + 1
    else if f % 2 == 0 then f
    else f + 1
  }

  /** Python's `round(x, 2)`: finite values go to the nearest multiple of
      0.01, ties to even; infinities and NaN come back unchanged. */
  function Round2(x: Float): (r: Float)
    ensures r.Finite? <==> x.Finite?
    ensures x.Finite? ==> -(1.0 / 200.0) <= r.value - x.value <= 1.0 / 200.0
    ensures x.Finite? ==> (r.value * 100.0).Floor as real == r.value * 100.0
    // On a tie at the thousandths the result is the even number of hundredths.
    ensures x.Finite? && r.value - x.value == 1.0 / 200.0 ==> (r.value * 100.0).Floor % 2 == 0
    ensures x.Finite? && x.value - r.value == 1.0 / 200.0 ==> (r.value * 100.0).Floor % 2 == 0
    ensures !x.Finite? ==> r == x
  {
    match x
    case Finite(v) =>
      var k := RoundHalfEven(v * 100.0);
      assert (k as real / 100.0) * 100.0 == k as real;
      Finite(k as real / 100.0)
    case _ => x
  }

  /** Rounding to hundredths moves a value above 400 exactly when it was
      above 400.005: 400.005 itself ties down to the even 400.00. */
  lemma RoundHalfEvenAbove(y: real)
    ensures RoundHalfEven(y) > 40000 <==> y > 40000.5
  {
    var f := y.Floor;
    if y > 40000.5 {
      assert f >= 40000;
    } else {
      assert f <= 40000;
      if f == 40000 {
        assert f % 2 == 0;
      }
    }
  }

  /** Rounding to hundredths moves a value below -150 exactly when it was
      below -150.005: -150.005 itself ties up to the even -150.00. */
  lemma RoundHalfEvenBelow(y: real)
    ensures RoundHalfEven(y) < -15000 <==> y < -15000.5
  {
    var f := y.Floor;
    if y < -15000.5 {
      assert f <= -15001;
    } else {
      assert f >= -15001;
      if f == -15001 {
        assert f % 2 != 0;
      }
    }
  }

  /** `round(x, 2) > 400` holds exactly when `x > 400.005`. */
  lemma Round2Above400(x: Float)
    ensures Greater(Round2(x), 400.0) <==> Greater(x, 400.005)
  {
    if x.Finite? {
      RoundHalfEvenAbove(x.value * 100.0);
    }
  }

  /** `round(x, 2) < -150` holds exactly when `x < -150.005`. */
  lemma Round2Below150(x: Float)
    ensures Less(Round2(x), -150.0) <==> Less(x, -150.005)
  {
    if x.Finite? {
      RoundHalfEvenBelow(x.value * 100.0);
    }
  }
}

=== FILE: history.dfy ===
/** The two in-memory series the script plots and logs (`ys_temp` and
    `ys_humidity`), and the 60-sample x-range of each plot. */
module History {
  import opened Floats

  /** Both series grow by one sample per decoded frame and are never trimmed. */
  datatype History = History(airTemps: seq<Float>, humidities: seq<Float>)

  /** The number of samples shown at once. */
  const Window: nat := 60

  /** The closed x-axis interval `[lo, hi]` passed to `set_xlim`. */
  datatype XRange = XRange(lo: int, hi: int)

  /** The series are parallel: sample i of each comes from the same frame. */
  predicate Aligned(h: History)
  {
    |h.airTemps| == |h.humidities|
  }

  /** The history at start-up. */
  function Empty(): (h: History)
    ensures Aligned(h) && |h.airTemps| == 0
  {
    History([], [])
  }

  /** `ys_temp.append(t); ys_humidity.append(h)`. */
  function Append(h: History, airTemp: Float, humidity: Float): (h': History)
    ensures Aligned(h) ==> Aligned(h')
    ensures |h'.airTemps| == |h.airTemps| + 1 && |h'.humidities| == |h.humidities| + 1
    ensures h'.airTemps[..|h.airTemps|] == h.airTemps && h'.airTemps[|h.airTemps|] == airTemp
    ensures h'.humidities[..|h.humidities|] == h.humidities && h'.humidities[|h.humidities|] == humidity
  {
    History(h.airTemps + [airTemp], h.humidities + [humidity])
  }

  /** Sample i is drawn at x = i, so it is visible when the range covers i. */
  predicate Covers(r: XRange, x: int)
  {
    r.lo <= x <= r.hi
  }

  /** `set_xlim([len(ys)-60, len(ys)])` for a series of `n` samples: of the
      samples 0 .. n-1, exactly the last 60 fall inside the range, and the
      newest sits one step left of the right edge. */
  function XLimits(n: nat): (r: XRange)
    ensures r.hi - r.lo == Window
    ensures r.hi == n
    ensures forall i :: 0 <= i < n ==> (Covers(r, i) <==> n - Window <= i)
  {
    XRange(n - Window, n)
  }

  /** The samples a plot shows, in order. */
  function Shown(series: seq<Float>, r: XRange): (shown: seq<Float>)
    ensures |shown| <= |series|
  {
    if |series| == 0 then []
    else
      var last := |series| - 1;
      Shown(series[..last], r) + (if Covers(r, last) then [series[last]] else [])
  }

  /** When the range reaches past the last sample, the visible samples are
      the suffix of the series starting at the clamped lower bound. */
  lemma {:induction false} ShownSuffix(series: seq<Float>, r: XRange)
    requires r.hi >= |series| - 1
    ensures var start := if r.lo < 0 then 0 else if r.lo > |series| then |series| else r.lo;
            Shown(series, r) == series[start..]
    decreases |series|
  {
    if |series| > 0 {
      var last := |series| - 1;
      ShownSuffix(series[..last], r);
      if r.lo <= last {
        var start := if r.lo < 0 then 0 else r.lo;
        assert series[..last][start..] + [series[last]] == series[start..];
      }
    }
  }

  /** Each plot shows exactly the last 60 samples of its series, or all of
      them while there are fewer than 60. */
  lemma WindowShowsLatest(series: seq<Float>)
    ensures Shown(series, XLimits(|series|))
         == series[if |series| < Window then 0 else |series| - Window..]
    ensures |Shown(series, XLimits(|series|))| == if |series| < Window then |series| else Window
  {
    ShownSuffix(series, XLimits(|series|));
  }
}

=== FILE: monitor.dfy ===
/** One call of `animate`: read a frame, extend both series, recompute the
    plot ranges and the log file name, and choose the alerts; and a run of
    such calls. */
module Monitor {
  import opened Results
  import opened Floats
  import opened Telemetry
  import opened History
  import opened DailyLog
  import opened Alerts
  import opened Ports

  /** What one successful tick produces: the extended history (which is also
      the whole table written to the log file), the x-range of both plots,
      the log file's name and the alerts sent. */
  datatype TickReport = TickReport(history: History, xRange: XRange, logName: string, alerts: seq<Alert>)

  /** One animation tick on the received line `line`, on local date `today`,
      as the script intends it: the SMTP connection uses port 587, so every
      alert chosen is sent. */
  function Tick(h: History, line: seq<byte>, today: CalendarDate, num: NumberSyntax): (r: Result<TickReport, FrameError>)
    ensures r.Ok? <==> DecodeFrame(line, num).Ok?
    ensures r.Err? ==> r.error == DecodeFrame(line, num).error
    ensures r.Ok? ==>
              var reading := DecodeFrame(line, num).value;
              && r.value.history == Append(h, reading.airTemp, reading.humidity)
              && (Aligned(h) ==> Aligned(r.value.history))
              && r.value.xRange == XLimits(|r.value.history.airTemps|)
              && r.value.logName == LogName(today)
              && r.value.alerts == AlertsFor(reading.airTemp)
  {
    match DecodeFrame(line, num)
    case Err(e) => Err(e)
    case Ok(reading) =>
      var h' := Append(h, reading.airTemp, reading.humidity);
      Ok(TickReport(h', XLimits(|h'.airTemps|), LogName(today), AlertsFor(reading.airTemp)))
  }

  /** The state after a run of ticks: the history, every alert sent, and the
      frame error that ended the run, if one did. */
  datatype RunOutcome = RunOutcome(history: History, alerts: seq<Alert>, stoppedBy: Option<FrameError>)

  /** Ticks in arrival order. The first frame that fails to decode raises out of
      the animation callback, and the run ends there. */
  function Run(h: History, frames: seq<(seq<byte>, CalendarDate)>, num: NumberSyntax): (out: RunOutcome)
    ensures |out.history.airTemps| <= |h.airTemps| + |frames|
    decreases |frames|
  {
    if |frames| == 0 then RunOutcome(h, [], None)
    else
      match Tick(h, frames[0].0, frames[0].1, num)
      case Err(e) => RunOutcome(h, [], Some(e))
      case Ok(report) =>
        var rest := Run(report.history, frames[1..], num);
        RunOutcome(rest.history, report.alerts + rest.alerts, rest.stoppedBy)
  }

  /** The readings of the frames that decode, up to the first that does not. */
  function Decoded(frames: seq<(seq<byte>, CalendarDate)>, num: NumberSyntax): (readings: seq<Reading>)
    ensures |readings| <= |frames|
    ensures forall i :: 0 <= i < |readings| ==> DecodeFrame(frames[i].0, num) == Ok(readings[i])
    ensures |readings| < |frames| ==> DecodeFrame(frames[|readings|].0, num).Err?
  {
    if |frames| == 0 then []
    else match DecodeFrame(frames[0].0, num)
      case Err(_) => []
      case Ok(reading) => [reading] + Decoded(frames[1..], num)
  }

  /** The air temperatures of some readings, in order. */
  function AirTemps(readings: seq<Reading>): (temps: seq<Float>)
    ensures |temps| == |readings|
  {
    if |readings| == 0 then [] else [readings[0].airTemp] + AirTemps(readings[1..])
  }

  /** The humidities of some readings, in order. */
  function Humidities(readings: seq<Reading>): (hums: seq<Float>)
    ensures |hums| == |readings|
  {
    if |readings| == 0 then [] else [readings[0].humidity] + Humidities(readings[1..])
  }

  /** Unfolds one step of a run whose first frame decodes. */
  lemma RunStep(h: History, frames: seq<(seq<byte>, CalendarDate)>, num: NumberSyntax)
    requires |frames| > 0 && DecodeFrame(frames[0].0, num).Ok?
    ensures var reading := DecodeFrame(frames[0].0, num).value;
            var rest := Run(Append(h, reading.airTemp, reading.humidity), frames[1..], num);
            && Run(h, frames, num) == RunOutcome(rest.history, AlertsFor(reading.airTemp) + rest.alerts, rest.stoppedBy)
            && Decoded(frames, num) == [reading] + Decoded(frames[1..], num)
  {
  }

  /** A run that starts with a failing frame, or has no frames, leaves the
      history as it was. */
  lemma RunHalts(h: History, frames: seq<(seq<byte>, CalendarDate)>, num: NumberSyntax)
    requires |frames| == 0 || DecodeFrame(frames[0].0, num).Err?
    ensures Run(h, frames, num).history == h && Decoded(frames, num) == []
  {
  }

  /** The history after appending some readings one by one. */
  function AppendAll(h: History, readings: seq<Reading>): (h': History)
    ensures |h'.airTemps| == |h.airTemps| + |readings|
    ensures |h'.humidities| == |h.humidities| + |readings|
    decreases |readings|
  {
    if |readings| == 0 then h
    else AppendAll(Append(h, readings[0].airTemp, readings[0].humidity), readings[1..])
  }

  /** The history a run leaves is its start with the decoded readings
      appended, in arrival order. */
  lemma {:induction false} RunAppendsDecoded(h: History, frames: seq<(seq<byte>, CalendarDate)>, num: NumberSyntax)
    ensures Run(h, frames, num).history == AppendAll(h, Decoded(frames, num))
    decreases |frames|
  {
    if |frames| > 0 && DecodeFrame(frames[0].0, num).Ok? {
      var reading := DecodeFrame(frames[0].0, num).value;
      RunStep(h, frames, num);
      RunAppendsDecoded(Append(h, reading.airTemp, reading.humidity), frames[1..], num);
      var readings := [reading] + Decoded(frames[1..], num);
      assert readings[0] == reading && readings[1..] == Decoded(frames[1..], num);
    } else {
      RunHalts(h, frames, num);
    }
  }

  /** Appending readings one by one extends each series by their values, in
      order, and leaves the earlier samples alone. */
  lemma {:induction false} AppendAllExtends(h: History, readings: seq<Reading>)
    ensures AppendAll(h, readings).airTemps == h.airTemps + AirTemps(readings)
    ensures AppendAll(h, readings).humidities == h.humidities + Humidities(readings)
    decreases |readings|
  {
    if |readings| == 0 {
      assert h.airTemps + [] == h.airTemps && h.humidities + [] == h.humidities;
    } else {
      var r := readings[0];
      AppendAllExtends(Append(h, r.airTemp, r.humidity), readings[1..]);
      assert AppendAll(h, readings) == AppendAll(Append(h, r.airTemp, r.humidity), readings[1..]);
      assert AirTemps(readings) == [r.airTemp] + AirTemps(readings[1..]);
      assert Humidities(readings) == [r.humidity] + Humidities(readings[1..]);
      assert (h.airTemps + [r.airTemp]) + AirTemps(readings[1..]) == h.airTemps + ([r.airTemp] + AirTemps(readings[1..]));
      assert (h.humidities + [r.humidity]) + Humidities(readings[1..]) == h.humidities + ([r.humidity] + Humidities(readings[1..]));
    }
  }

  /** The alerts of a run are those of the decoded air temperatures, one
      classification per sample with nothing carried over between ticks. */
  lemma {:induction false} RunAlertsPerSample(h: History, frames: seq<(seq<byte>, CalendarDate)>, num: NumberSyntax)
    ensures Run(h, frames, num).alerts == AlertsOver(AirTemps(Decoded(frames, num)))
    decreases |frames|
  {
    if |frames| > 0 && DecodeFrame(frames[0].0, num).Ok? {
      var reading := DecodeFrame(frames[0].0, num).value;
      var h' := Append(h, reading.airTemp, reading.humidity);
      RunStep(h, frames, num);
      RunAlertsPerSample(h', frames[1..], num);
      var readings := [reading] + Decoded(frames[1..], num);
      assert readings[0] == reading && readings[1..] == Decoded(frames[1..], num);
      var temps := AirTemps(readings);
      assert temps[0] == reading.airTemp && temps[1..] == AirTemps(Decoded(frames[1..], num));
    }
  }

  /** A run ends early exactly when a frame fails, and then at the first such
      frame, reporting that frame's error. */
  lemma {:induction false} RunStopsAtFirstFailure(h: History, frames: seq<(seq<byte>, CalendarDate)>, num: NumberSyntax)
    ensures Run(h, frames, num).stoppedBy.None? <==> |Decoded(frames, num)| == |frames|
    ensures Run(h, frames, num).stoppedBy.Some? ==>
              DecodeFrame(frames[|Decoded(frames, num)|].0, num) == Err(Run(h, frames, num).stoppedBy.value)
    decreases |frames|
  {
    if |frames| > 0 && DecodeFrame(frames[0].0, num).Ok? {
      var reading := DecodeFrame(frames[0].0, num).value;
      RunStep(h, frames, num);
      RunStopsAtFirstFailure(Append(h, reading.airTemp, reading.humidity), frames[1..], num);
    }
  }

  /** The two series stay the same length through any run, so row i of the
      log and x = i in both plots belong to the same frame. */
  lemma RunKeepsAligned(h: History, frames: seq<(seq<byte>, CalendarDate)>, num: NumberSyntax)
    requires Aligned(h)
    ensures Aligned(Run(h, frames, num).history)
  {
    RunAppendsDecoded(h, frames, num);
    AppendAllExtends(h, Decoded(frames, num));
  }

  /** How a tick ends in an exception: the frame did not decode, or an alert
      was due and opening the SMTP connection raised. The second keeps the
      history as it stood after the appends, since the series are
      module-level lists the tick had already extended. */
  datatype TickAbort = FrameFailed(error: FrameError) | SendFailed(alert: Alert, history: History)

  /** One animation tick with the global `port` holding `port` when the alert
      code runs. An alert is delivered only when `port` is a number. */
  function TickWith(h: History, line: seq<byte>, today: CalendarDate, num: NumberSyntax, port: PortValue)
    : (r: Result<TickReport, TickAbort>)
    ensures r.Err? && r.error.FrameFailed? <==> DecodeFrame(line, num).Err?
    ensures r.Err? && r.error.FrameFailed? ==> r.error.error == DecodeFrame(line, num).error
    ensures r.Err? && r.error.SendFailed? <==>
              && DecodeFrame(line, num).Ok?
              && !Connectable(port)
              && AlertsFor(DecodeFrame(line, num).value.airTemp) != []
    ensures r.Err? && r.error.SendFailed? ==>
              var reading := DecodeFrame(line, num).value;
              && r.error.history == Append(h, reading.airTemp, reading.humidity)
              && AlertsFor(reading.airTemp) == [r.error.alert]
    ensures r.Ok? ==> Tick(h, line, today, num).Ok? && r.value == Tick(h, line, today, num).value
    ensures r.Ok? && !Connectable(port) ==> r.value.alerts == []
    ensures Connectable(port) ==> (r.Ok? <==> DecodeFrame(line, num).Ok?)
  {
    match Tick(h, line, today, num)
    case Err(e) => Err(FrameFailed(e))
    case Ok(report) =>
      if report.alerts != [] && !Connectable(port) then Err(SendFailed(report.alerts[0], report.history))
      else Ok(report)
  }

  /** A run of ticks with the global `port` holding `port`: the alerts
      delivered, and the exception that ended the run, if one did. */
  datatype PortRunOutcome = PortRunOutcome(history: History, alerts: seq<Alert>, stoppedBy: Option<TickAbort>)

  /** Ticks in arrival order until the first exception. */
  function RunWith(h: History, frames: seq<(seq<byte>, CalendarDate)>, num: NumberSyntax, port: PortValue)
    : (out: PortRunOutcome)
    ensures |out.history.airTemps| <= |h.airTemps| + |frames|
    ensures out.stoppedBy.Some? && out.stoppedBy.value.SendFailed? ==> out.stoppedBy.value.history == out.history
    decreases |frames|
  {
    if |frames| == 0 then PortRunOutcome(h, [], None)
    else
      match TickWith(h, frames[0].0, frames[0].1, num, port)
      case Err(FrameFailed(e)) => PortRunOutcome(h, [], Some(FrameFailed(e)))
      case Err(SendFailed(a, h')) => PortRunOutcome(h', [], Some(SendFailed(a, h')))
      case Ok(report) =>
        var rest := RunWith(report.history, frames[1..], num, port);
        PortRunOutcome(rest.history, report.alerts + rest.alerts, rest.stoppedBy)
  }

  /** With `port` holding the SMTP port, as the script intends, a run is the
      run of `Run`: same history, same alerts delivered, same frame error. */
  lemma {:induction false} RunWithSmtpPortIsRun(h: History, frames: seq<(seq<byte>, CalendarDate)>, num: NumberSyntax)
    ensures var out := RunWith(h, frames, num, Number(SmtpPort));
            && out.history == Run(h, frames, num).history
            && out.alerts == Run(h, frames, num).alerts
            && (Run(h, frames, num).stoppedBy.None? <==> out.stoppedBy.None?)
            && (out.stoppedBy.Some? ==> out.stoppedBy.value == FrameFailed(Run(h, frames, num).stoppedBy.value))
    decreases |frames|
  {
    if |frames| > 0 && DecodeFrame(frames[0].0, num).Ok? {
      var report := Tick(h, frames[0].0, frames[0].1, num).value;
      assert TickWith(h, frames[0].0, frames[0].1, num, Number(SmtpPort)) == Ok(report);
      RunWithSmtpPortIsRun(report.history, frames[1..], num);
    }
  }

  /** No sample the run appended before position `hi` of `temps`, from
      position `lo` on, calls for an alert. */
  predicate QuietBetween(temps: seq<Float>, lo: nat, hi: nat)
    requires lo <= hi <= |temps|
  {
    forall i :: lo <= i < hi ==> AlertsFor(temps[i]) == []
  }

  /** The script as written, whenever the controller was found: no alert is
      ever delivered, and the run only appends to the series. */
  lemma {:induction false} RunAsWrittenSendsNothing(h: History, frames: seq<(seq<byte>, CalendarDate)>,
                                                    num: NumberSyntax, port: PortValue)
    requires !Connectable(port)
    ensures RunWith(h, frames, num, port).alerts == []
    ensures |h.airTemps| <= |RunWith(h, frames, num, port).history.airTemps|
    ensures RunWith(h, frames, num, port).history.airTemps[..|h.airTemps|] == h.airTemps
    ensures |h.humidities| <= |RunWith(h, frames, num, port).history.humidities|
    ensures RunWith(h, frames, num, port).history.humidities[..|h.humidities|] == h.humidities
    decreases |frames|
  {
    if |frames| > 0 {
      var t := TickWith(h, frames[0].0, frames[0].1, num, port);
      if t.Ok? {
        var h' := t.value.history;
        RunAsWrittenSendsNothing(h', frames[1..], num, port);
        var temps := RunWith(h, frames, num, port).history.airTemps;
        assert temps[..|h.airTemps|] == temps[..|h'.airTemps|][..|h.airTemps|];
        var hums := RunWith(h, frames, num, port).history.humidities;
        assert hums[..|h.humidities|] == hums[..|h'.humidities|][..|h.humidities|];
      }
    }
  }

  /** The script as written stops at the first sample outside the range: the
      run appends in-range samples, then that sample, whose tick raises while
      opening the SMTP connection. A run that ends otherwise appended only
      in-range samples. */
  lemma {:induction false} RunAsWrittenStopsAtExcursion(h: History, frames: seq<(seq<byte>, CalendarDate)>,
                                                        num: NumberSyntax, port: PortValue)
    requires !Connectable(port)
    ensures var out := RunWith(h, frames, num, port);
            var n := |out.history.airTemps|;
            && |h.airTemps| <= n
            && (out.stoppedBy.Some? && out.stoppedBy.value.SendFailed? ==>
                  && |h.airTemps| < n
                  && QuietBetween(out.history.airTemps, |h.airTemps|, n - 1)
                  && AlertsFor(out.history.airTemps[n - 1]) == [out.stoppedBy.value.alert])
            && (out.stoppedBy.None? || out.stoppedBy.value.FrameFailed? ==>
                  QuietBetween(out.history.airTemps, |h.airTemps|, n))
    decreases |frames|
  {
    RunAsWrittenSendsNothing(h, frames, num, port);
    var out := RunWith(h, frames, num, port);
    if |frames| > 0 {
      var t := TickWith(h, frames[0].0, frames[0].1, num, port);
      if t.Ok? {
        var h' := t.value.history;
        var rest := RunWith(h', frames[1..], num, port);
        RunWithOkStep(h, frames, num, port);
        assert out.history == rest.history && out.stoppedBy == rest.stoppedBy;
        RunAsWrittenStopsAtExcursion(h', frames[1..], num, port);
        RunAsWrittenSendsNothing(h', frames[1..], num, port);
        QuietStep(h, h', rest);
      } else {
        RunWithErrStep(h, frames, num, port);
        if t.error.SendFailed? {
          var reading := DecodeFrame(frames[0].0, num).value;
          assert out.history == Append(h, reading.airTemp, reading.humidity);
        }
      }
    }
  }

  /** Unfolds one step of a run whose first tick returns. */
  lemma RunWithOkStep(h: History, frames: seq<(seq<byte>, CalendarDate)>, num: NumberSyntax, port: PortValue)
    requires |frames| > 0 && TickWith(h, frames[0].0, frames[0].1, num, port).Ok?
    ensures var report := TickWith(h, frames[0].0, frames[0].1, num, port).value;
            var rest := RunWith(report.history, frames[1..], num, port);
            RunWith(h, frames, num, port) == PortRunOutcome(rest.history, report.alerts + rest.alerts, rest.stoppedBy)
  {
  }

  /** A run whose first tick raises stops there with that exception. */
  lemma RunWithErrStep(h: History, frames: seq<(seq<byte>, CalendarDate)>, num: NumberSyntax, port: PortValue)
    requires |frames| > 0 && TickWith(h, frames[0].0, frames[0].1, num, port).Err?
    ensures var e := TickWith(h, frames[0].0, frames[0].1, num, port).error;
            && RunWith(h, frames, num, port).stoppedBy == Some(e)
            && RunWith(h, frames, num, port).history == (if e.FrameFailed? then h else e.history)
  {
  }

  /** One in-range sample in front of a quiet stretch keeps it quiet. */
  lemma QuietStep(h: History, h': History, out: PortRunOutcome)
    requires |h'.airTemps| == |h.airTemps| + 1 && AlertsFor(h'.airTemps[|h.airTemps|]) == []
    requires |h'.airTemps| <= |out.history.airTemps|
    requires out.history.airTemps[..|h'.airTemps|] == h'.airTemps
    ensures forall hi :: |h'.airTemps| <= hi <= |out.history.airTemps| &&
                         QuietBetween(out.history.airTemps, |h'.airTemps|, hi) ==>
                         QuietBetween(out.history.airTemps, |h.airTemps|, hi)
  {
    var temps := out.history.airTemps;
    assert temps[|h.airTemps|] == temps[..|h'.airTemps|][|h.airTemps|];
  }

  /** Some reading calls for an alert. */
  predicate HasExcursion(readings: seq<Reading>)
  {
    exists i :: 0 <= i < |readings| && AlertsFor(readings[i].airTemp) != []
  }

  /** Past an in-range first reading, an excursion lies in the rest. */
  lemma HasExcursionTail(readings: seq<Reading>)
    requires |readings| > 0 && AlertsFor(readings[0].airTemp) == []
    ensures HasExcursion(readings) <==> HasExcursion(readings[1..])
  {
    if HasExcursion(readings) {
      var i :| 0 <= i < |readings| && AlertsFor(readings[i].airTemp) != [];
      assert readings[1..][i - 1] == readings[i];
    }
    if HasExcursion(readings[1..]) {
      var i :| 0 <= i < |readings[1..]| && AlertsFor(readings[1..][i].airTemp) != [];
      assert readings[i + 1] == readings[1..][i];
    }
  }

  /** The readings the script as written records: all of them up to and
      including the first one out of range, whose tick then raises. */
  function Recorded(readings: seq<Reading>): (kept: seq<Reading>)
    ensures |kept| <= |readings| && kept == readings[..|kept|]
    ensures forall i :: 0 <= i < |kept| - 1 ==> AlertsFor(kept[i].airTemp) == []
    ensures HasExcursion(readings) <==> |kept| > 0 && AlertsFor(kept[|kept| - 1].airTemp) != []
    ensures !HasExcursion(readings) ==> kept == readings
  {
    if |readings| == 0 then []
    else if AlertsFor(readings[0].airTemp) != [] then
      assert readings[..1] == [readings[0]];
      [readings[0]]
    else
      var rest := Recorded(readings[1..]);
      HasExcursionTail(readings);
      var kept := [readings[0]] + rest;
      assert kept[1..] == rest;
      assert readings[..|kept|] == [readings[0]] + readings[1..][..|rest|];
      assert |rest| > 0 ==> kept[|kept| - 1] == rest[|rest| - 1];
      assert !HasExcursion(readings) ==> readings == [readings[0]] + readings[1..];
      kept
  }

  /** The script as written, whenever the controller was found: the run
      records the decoded readings, in arrival order, up to and including
      the first one out of range, and it stops with a failed send exactly
      when such a reading arrives. */
  lemma {:induction false} RunAsWrittenRecords(h: History, frames: seq<(seq<byte>, CalendarDate)>,
                                               num: NumberSyntax, port: PortValue)
    requires !Connectable(port)
    ensures RunWith(h, frames, num, port).history == AppendAll(h, Recorded(Decoded(frames, num)))
    ensures (RunWith(h, frames, num, port).stoppedBy.Some?
             && RunWith(h, frames, num, port).stoppedBy.value.SendFailed?)
            <==> HasExcursion(Decoded(frames, num))
    decreases |frames|
  {
    if |frames| == 0 {
      assert Decoded(frames, num) == [];
    } else {
      var t := TickWith(h, frames[0].0, frames[0].1, num, port);
      if t.Err? && t.error.FrameFailed? {
        RunWithErrStep(h, frames, num, port);
        assert Decoded(frames, num) == [];
      } else {
        var reading := DecodeFrame(frames[0].0, num).value;
        var h' := Append(h, reading.airTemp, reading.humidity);
        var rest := Decoded(frames[1..], num);
        var d := Decoded(frames, num);
        assert d == [reading] + rest;
        assert d[0] == reading && d[1..] == rest;
        if t.Ok? {
          RunWithOkStep(h, frames, num, port);
          RunAsWrittenRecords(h', frames[1..], num, port);
          var kept := [reading] + Recorded(rest);
          assert Recorded(d) == kept;
          assert kept[0] == reading && kept[1..] == Recorded(rest);
          assert AppendAll(h, kept) == AppendAll(h', Recorded(rest));
        } else {
          RunWithErrStep(h, frames, num, port);
          assert AlertsFor(d[0].airTemp) != [];
          assert Recorded(d) == [reading];
          assert [reading][1..] == [];
          assert AppendAll(h, [reading]) == AppendAll(h', []);
        }
      }
    }
  }

  /** How the script as written ends a run: it runs to the last frame
      exactly when every frame decodes and none is out of range, and a frame
      that fails to decode raises as it does whatever `port` holds. */
  lemma {:induction false} RunAsWrittenStops(h: History, frames: seq<(seq<byte>, CalendarDate)>,
                                             num: NumberSyntax, port: PortValue)
    requires !Connectable(port)
    ensures RunWith(h, frames, num, port).stoppedBy.None? <==>
              |Decoded(frames, num)| == |frames| && !HasExcursion(Decoded(frames, num))
    ensures RunWith(h, frames, num, port).stoppedBy.Some? && RunWith(h, frames, num, port).stoppedBy.value.FrameFailed? ==>
              && |Decoded(frames, num)| < |frames|
              && DecodeFrame(frames[|Decoded(frames, num)|].0, num)
                 == Err(RunWith(h, frames, num, port).stoppedBy.value.error)
    decreases |frames|
  {
    if |frames| > 0 {
      var t := TickWith(h, frames[0].0, frames[0].1, num, port);
      if t.Err? {
        RunWithErrStep(h, frames, num, port);
        if t.error.SendFailed? {
          var d := Decoded(frames, num);
          assert d[0] == DecodeFrame(frames[0].0, num).value;
        }
      } else {
        var reading := DecodeFrame(frames[0].0, num).value;
        var rest := Decoded(frames[1..], num);
        var d := Decoded(frames, num);
        assert d == [reading] + rest;
        assert d[0] == reading && d[1..] == rest;
        RunWithOkStep(h, frames, num, port);
        RunAsWrittenStops(t.value.history, frames[1..], num, port);
        HasExcursionTail(d);
        if |rest| < |frames[1..]| {
          assert frames[1..][|rest|] == frames[|d|];
        }
      }
    }
  }

  /** The discrepancy on one frame: once the controller was found, a frame
      whose air temperature is out of range is recorded and then raises in
      the script as written, while the tick with the SMTP port delivers the
      alert. */
  lemma ExcursionRaisesAsWritten(ports: seq<PortInfo>, h: History, line: seq<byte>, today: CalendarDate,
                                 num: NumberSyntax)
    requires Discover(ports).serial.Some?
    requires DecodeFrame(line, num).Ok? && AlertsFor(DecodeFrame(line, num).value.airTemp) != []
    ensures var reading := DecodeFrame(line, num).value;
            && TickWith(h, line, today, num, Discover(ports).port)
               == Err(SendFailed(AlertsFor(reading.airTemp)[0], Append(h, reading.airTemp, reading.humidity)))
            && TickWith(h, line, today, num, Number(SmtpPort)).Ok?
            && TickWith(h, line, today, num, Number(SmtpPort)).value.alerts == AlertsFor(reading.airTemp)
  {
  }
}

=== FILE: ports.dfy ===
/** Serial-port discovery at start-up, the loop over `comports()`, kept for
    what it does to the module-level name `port`: the loop variable is that
    same global, which held the SMTP port until then. */
module Ports {
  import opened Results

  /** The SMTP submission port the script first assigns to `port`. */
  const SmtpPort: int := 587

  /** The description that identifies the controller: its CH340 USB-serial bridge. */
  const Ch340: string := "USB-SERIAL CH340"

  /** One entry of `comports()`. */
  datatype PortInfo = PortInfo(device: string, description: string)

  /** What the global `port` holds: a number, or a port record left by the loop. */
  datatype PortValue = Number(n: int) | Record(info: PortInfo)

  /** The globals after discovery: `port`, and the device `ser` was opened
      on, if the controller was found. */
  datatype Discovery = Discovery(port: PortValue, serial: Option<string>)

  /** Python's `sub in s` on strings. */
  predicate Contains(s: string, sub: string)
    decreases |s|
  {
    |sub| <= |s| && (s[..|sub|] == sub || Contains(s[1..], sub))
  }

  /** SMTP's address lookup takes the port as a number; given a port record,
      `smtplib.SMTP(smtp_server, port)` raises before anything is sent. */
  predicate Connectable(port: PortValue)
  {
    port.Number?
  }

  /** The loop body over a non-empty list: stop at the first CH340 entry;
      otherwise the loop variable keeps the last entry. */
  function Scan(ports: seq<PortInfo>): (d: Discovery)
    requires |ports| > 0
    ensures d.port.Record?
    ensures d.serial.Some? <==> exists i :: 0 <= i < |ports| && Contains(ports[i].description, Ch340)
    ensures d.serial.Some? ==>
              exists k :: 0 <= k < |ports| && ports[k] == d.port.info
                && d.serial.value == ports[k].device
                && Contains(ports[k].description, Ch340)
                && forall j :: 0 <= j < k ==> !Contains(ports[j].description, Ch340)
    ensures d.serial.None? ==> d.port.info == ports[|ports| - 1]
  {
    if Contains(ports[0].description, Ch340) then Discovery(Record(ports[0]), Some(ports[0].device))
    else if |ports| == 1 then Discovery(Record(ports[0]), None)
    else
      var d := Scan(ports[1..]);
      assert forall i :: 1 <= i < |ports| ==> ports[i] == ports[1..][i - 1];
      d
  }

  /** Lines 44-59 of the script: with no ports `port` stays 587 and no serial
      connection exists; otherwise `port` is left holding a port record,
      the first CH340 entry when there is one, and `ser` is opened on its
      device. */
  function Discover(ports: seq<PortInfo>): (d: Discovery)
    ensures |ports| == 0 ==> d == Discovery(Number(SmtpPort), None)
    ensures |ports| > 0 ==> d == Scan(ports)
    ensures d.serial.Some? ==> !Connectable(d.port)
  {
    if |ports| == 0 then Discovery(Number(SmtpPort), None) else Scan(ports)
  }

  /** Whenever the controller was found, so that the animation can read
      frames at all, `port` no longer holds a number SMTP can use. */
  lemma ConnectedMeansPortRebound(ports: seq<PortInfo>)
    requires Discover(ports).serial.Some?
    ensures Discover(ports).port.Record?
    ensures Contains(Discover(ports).port.info.description, Ch340)
  {
    var d := Scan(ports);
    var k :| 0 <= k < |ports| && ports[k] == d.port.info && Contains(ports[k].description, Ch340);
  }

  /** After discovery the SMTP connection can be opened exactly when no
      serial port was listed at all, which is also when the animation has no
      serial connection to read from. */
  lemma ConnectableOnlyWithoutPorts(ports: seq<PortInfo>)
    ensures Connectable(Discover(ports).port) <==> |ports| == 0
    ensures Connectable(Discover(ports).port) ==> Discover(ports).serial.None?
  {
  }

  /** A single controller on COM3: it is found, and `port` ends up holding its record. */
  lemma SingleControllerRebindsPort()
    ensures Discover([PortInfo("COM3", "USB-SERIAL CH340 (COM3)")])
         == Discovery(Record(PortInfo("COM3", "USB-SERIAL CH340 (COM3)")), Some("COM3"))
  {
    var s := "USB-SERIAL CH340 (COM3)";
    assert s[..|Ch340|] == Ch340;
  }
}

=== FILE: results.dfy ===
/** Optional values and success-or-error values, standing in for Python's
    `None` and for an exception that ends the current call. */
module Results {

  datatype Option<+T> = None | Some(value: T)

  datatype Result<+T, +E> = Ok(value: T) | Err(error: E)
}

=== FILE: setpoints.dfy ===
/** The setpoint serialiser behind the Send button: three columns of entry
    texts (temperature, humidity, hold time) become one payload for the
    controller, one `t,h,hold` row per setpoint, rows separated by newlines. */
module Setpoints {
  import opened Results
  import opened Floats
  import opened Text

  datatype Column = Temperature | Humidity | HoldTime

  datatype Setpoint = Setpoint(temperature: Float, humidity: Float, holdTime: Float)

  /** Why the Send button writes nothing: `float()` rejected a non-empty entry
      (ValueError), or a humidity or hold-time value is missing for a
      temperature row (IndexError). */
  datatype SetpointError =
    | NotNumeric(column: Column, entry: string)
    | MissingEntry(column: Column, row: nat)

  /** The entries kept by `[e for e in entries if e]`: the non-empty ones, in order. */
  function Filled(entries: seq<string>): (kept: seq<string>)
    ensures |kept| <= |entries|
    ensures forall i :: 0 <= i < |kept| ==> kept[i] != ""
    ensures forall e :: e in entries && e != "" ==> e in kept
    ensures forall e :: e in kept ==> e in entries
  {
    if |entries| == 0 then []
    else (if entries[0] == "" then [] else [entries[0]]) + Filled(entries[1..])
  }

  /** The filter drops every empty entry and keeps every other one as often
      as it occurs. */
  lemma {:induction false} FilledCounts(entries: seq<string>)
    ensures multiset(Filled(entries)) == multiset(entries)["" := 0]
    ensures |Filled(entries)| + multiset(entries)[""] == |entries|
    decreases |entries|
  {
    if |entries| > 0 {
      FilledCounts(entries[1..]);
      assert entries == [entries[0]] + entries[1..];
    }
  }

  /** Every non-empty entry is accepted by `float()`. */
  predicate Numeric(entries: seq<string>, num: NumberSyntax)
  {
    forall i :: 0 <= i < |entries| && entries[i] != "" ==> num.parse(entries[i]).Some?
  }

  /** `[float(e) for e in entries if e]`: the values of the non-empty entries,
      or the first non-empty entry `float()` rejects. */
  function ParseColumn(entries: seq<string>, num: NumberSyntax): (r: Result<seq<Float>, string>)
    ensures r.Ok? <==> Numeric(entries, num)
    ensures r.Ok? ==> |r.value| == |Filled(entries)|
    ensures r.Ok? ==> forall i :: 0 <= i < |r.value| ==> num.parse(Filled(entries)[i]) == Some(r.value[i])
    ensures r.Err? ==> r.error != "" && num.parse(r.error).None?
    ensures r.Err? ==> exists k :: 0 <= k < |entries| && entries[k] == r.error && Numeric(entries[..k], num)
  {
    if |entries| == 0 then Ok([])
    else
      var rest := ParseColumn(entries[1..], num);
      NumericCons(entries, num);
      if entries[0] == "" then
        assert Filled(entries) == Filled(entries[1..]);
        if rest.Err? then FirstErrorShifts(entries, rest.error, num); rest
        else rest
      else
        assert Filled(entries) == [entries[0]] + Filled(entries[1..]);
        match num.parse(entries[0])
        case None =>
          assert entries[..0] == [];
          Err(entries[0])
        case Some(v) =>
          if rest.Ok? then Ok([v] + rest.value)
          else FirstErrorShifts(entries, rest.error, num); rest
  }

  /** A column is numeric when its first entry is empty or numeric and the
      rest of it is numeric. */
  lemma NumericCons(entries: seq<string>, num: NumberSyntax)
    requires |entries| > 0
    ensures Numeric(entries, num)
        <==> (entries[0] == "" || num.parse(entries[0]).Some?) && Numeric(entries[1..], num)
  {
    if (entries[0] == "" || num.parse(entries[0]).Some?) && Numeric(entries[1..], num) {
      forall i | 0 <= i < |entries| && entries[i] != ""
        ensures num.parse(entries[i]).Some?
      {
        if i > 0 {
          assert entries[i] == entries[1..][i - 1];
        }
      }
    }
  }

  /** An entry that is the first rejected one after an accepted or empty
      first entry is the first rejected one of the whole column. */
  lemma FirstErrorShifts(entries: seq<string>, e: string, num: NumberSyntax)
    requires |entries| > 0
    requires entries[0] == "" || num.parse(entries[0]).Some?
    requires exists k :: 0 <= k < |entries| - 1 && entries[1..][k] == e && Numeric(entries[1..][..k], num)
    ensures exists k :: 0 <= k < |entries| && entries[k] == e && Numeric(entries[..k], num)
  {
    var k :| 0 <= k < |entries| - 1 && entries[1..][k] == e && Numeric(entries[1..][..k], num);
    assert entries[..k + 1] == [entries[0]] + entries[1..][..k];
    assert entries[k + 1] == e;
  }

  /** The entry texts of one column of the table. */
  function ColumnEntries(column: Column, temperatures: seq<string>, humidities: seq<string>,
                         holdTimes: seq<string>): seq<string>
  {
    match column
    case Temperature => temperatures
    case Humidity => humidities
    case HoldTime => holdTimes
  }

  /** The setpoints `send_to_arduino` would send, or the exception that stops it.
      The columns are parsed in the order temperatures, humidities, hold times;
      then row i pairs the i-th filled entry of each column. */
  function Plan(temperatures: seq<string>, humidities: seq<string>, holdTimes: seq<string>,
                num: NumberSyntax): (r: Result<seq<Setpoint>, SetpointError>)
    ensures r.Ok? <==>
              && Numeric(temperatures, num) && Numeric(humidities, num) && Numeric(holdTimes, num)
              && |Filled(humidities)| >= |Filled(temperatures)|
              && |Filled(holdTimes)| >= |Filled(temperatures)|
    ensures r.Ok? ==> |r.value| == |Filled(temperatures)|
    ensures r.Ok? ==> forall i :: 0 <= i < |r.value| ==>
              && num.parse(Filled(temperatures)[i]) == Some(r.value[i].temperature)
              && num.parse(Filled(humidities)[i]) == Some(r.value[i].humidity)
              && num.parse(Filled(holdTimes)[i]) == Some(r.value[i].holdTime)
    ensures r.Err? && r.error.NotNumeric? ==>
              && r.error.entry in ColumnEntries(r.error.column, temperatures, humidities, holdTimes)
              && r.error.entry != "" && num.parse(r.error.entry).None?
              && (r.error.column != Temperature ==> Numeric(temperatures, num))
              && (r.error.column == HoldTime ==> Numeric(humidities, num))
              && ParseColumn(ColumnEntries(r.error.column, temperatures, humidities, holdTimes), num)
                 == Err(r.error.entry)
    ensures r.Err? && r.error.MissingEntry? ==>
              && Numeric(temperatures, num) && Numeric(humidities, num) && Numeric(holdTimes, num)
              && r.error.column != Temperature
              && r.error.row < |Filled(temperatures)|
              && (r.error.column == Humidity ==>
                    r.error.row == |Filled(humidities)| <= |Filled(holdTimes)|)
              && (r.error.column == HoldTime ==>
                    r.error.row == |Filled(holdTimes)| < |Filled(humidities)|)
  {
    match ParseColumn(temperatures, num)
    case Err(e) => Err(NotNumeric(Temperature, e))
    case Ok(ts) =>
      match ParseColumn(humidities, num)
      case Err(e) => Err(NotNumeric(Humidity, e))
      case Ok(hs) =>
        match ParseColumn(holdTimes, num)
        case Err(e) => Err(NotNumeric(HoldTime, e))
        case Ok(hts) =>
          if |hs| < |ts| && |hs| <= |hts| then Err(MissingEntry(Humidity, |hs|))
          else if |hts| < |ts| then Err(MissingEntry(HoldTime, |hts|))
          else Ok(Rows(ts, hs, hts))
  }

  /** Row i of the loop: the i-th value of each parsed column. */
  function Rows(ts: seq<Float>, hs: seq<Float>, hts: seq<Float>): (sps: seq<Setpoint>)
    requires |hs| >= |ts| && |hts| >= |ts|
  {
    seq(|ts|, i requires 0 <= i < |ts| => Setpoint(ts[i], hs[i], hts[i]))
  }

  /** `str(t) + ',' + str(h) + ',' + str(hold)` */
  function RenderRow(sp: Setpoint, num: NumberSyntax): string
  {
    Join([num.render(sp.temperature), num.render(sp.humidity), num.render(sp.holdTime)], ',')
  }

  /** The rendered rows, in setpoint order. */
  function RenderRows(sps: seq<Setpoint>, num: NumberSyntax): (rows: seq<string>)
    ensures |rows| == |sps|
    ensures forall i :: 0 <= i < |sps| ==> rows[i] == RenderRow(sps[i], num)
  {
    seq(|sps|, i requires 0 <= i < |sps| => RenderRow(sps[i], num))
  }

  /** `'\n'.join(rows)`: the payload written to the controller. */
  function Encode(sps: seq<Setpoint>, num: NumberSyntax): (payload: string)
    ensures payload == "" <==> |sps| == 0
  {
    var rows := RenderRows(sps, num);
    if |sps| == 0 then "" else
      assert ',' in rows[0] by {
        assert rows[0] == num.render(sps[0].temperature) + [','] + Join([num.render(sps[0].humidity), num.render(sps[0].holdTime)], ',');
        assert rows[0][|num.render(sps[0].temperature)|] == ',';
      }
      JoinNonEmpty(rows, '\n');
      Join(rows, '\n')
  }

  /** `send_to_arduino`: the payload, or the exception raised before anything
      is written. */
  function Serialize(temperatures: seq<string>, humidities: seq<string>, holdTimes: seq<string>,
                     num: NumberSyntax): (r: Result<string, SetpointError>)
    ensures r.Ok? <==> Plan(temperatures, humidities, holdTimes, num).Ok?
    ensures r.Err? ==> r.error == Plan(temperatures, humidities, holdTimes, num).error
    ensures r.Ok? ==> (r.value == "" <==> |Filled(temperatures)| == 0)
  {
    match Plan(temperatures, humidities, holdTimes, num)
    case Err(e) => Err(e)
    case Ok(sps) => Ok(Encode(sps, num))
  }

  /** Reads one `t,h,hold` row back: exactly three fields, each a number. */
  function DecodeRow(row: string, num: NumberSyntax): Option<Setpoint>
  {
    var fields := Split(row, ',');
    if |fields| != 3 then None
    else match (num.parse(fields[0]), num.parse(fields[1]), num.parse(fields[2]))
      case (Some(t), Some(h), Some(hold)) => Some(Setpoint(t, h, hold))
      case _ => None
  }

  function DecodeRows(rows: seq<string>, num: NumberSyntax): (r: Option<seq<Setpoint>>)
    ensures r.Some? ==> |r.value| == |rows|
  {
    if |rows| == 0 then Some([])
    else match (DecodeRow(rows[0], num), DecodeRows(rows[1..], num))
      case (Some(sp), Some(sps)) => Some([sp] + sps)
      case _ => None
  }

  /** The controller's view of a payload: the empty payload is no setpoints,
      otherwise one setpoint per line. */
  function DecodePayload(payload: string, num: NumberSyntax): Option<seq<Setpoint>>
  {
    if payload == "" then Some([]) else DecodeRows(Split(payload, '\n'), num)
  }

  /** Filtering out empty entries works piecewise. */
  lemma {:induction false} FilledConcat(a: seq<string>, b: seq<string>)
    ensures Filled(a + b) == Filled(a) + Filled(b)
    decreases |a|
  {
    if |a| == 0 {
      assert a + b == b;
    } else {
      var ab := a + b;
      assert ab[0] == a[0] && ab[1..] == a[1..] + b;
      FilledConcat(a[1..], b);
      var fa, fb, fab := Filled(a[1..]), Filled(b), Filled(a[1..] + b);
      if a[0] == "" {
        assert Filled(ab) == fab && Filled(a) == fa;
      } else {
        assert Filled(ab) == [a[0]] + fab && Filled(a) == [a[0]] + fa;
        assert [a[0]] + (fa + fb) == ([a[0]] + fa) + fb;
      }
    }
  }

  /** Where the empty entries sit in a column does not matter to its parse. */
  lemma {:induction false} ParseColumnOfFilled(entries: seq<string>, num: NumberSyntax)
    ensures ParseColumn(Filled(entries), num) == ParseColumn(entries, num)
    decreases |entries|
  {
    if |entries| > 0 {
      ParseColumnOfFilled(entries[1..], num);
      var f := Filled(entries);
      if entries[0] == "" {
        assert f == Filled(entries[1..]);
      } else {
        assert f == [entries[0]] + Filled(entries[1..]);
        assert f[0] == entries[0] && f[1..] == Filled(entries[1..]);
      }
    }
  }

  /** A column made of two parts parses to the values of both, or fails at the
      first bad entry of the first part that has one. */
  lemma {:induction false} ParseColumnConcat(a: seq<string>, b: seq<string>, num: NumberSyntax)
    ensures ParseColumn(a + b, num)
         == match ParseColumn(a, num)
            case Err(e) => Err(e)
            case Ok(va) =>
              match ParseColumn(b, num)
              case Err(e) => Err(e)
              case Ok(vb) => Ok(va + vb)
    decreases |a|
  {
    if |a| == 0 {
      assert a + b == b;
      if ParseColumn(b, num).Ok? {
        assert [] + ParseColumn(b, num).value == ParseColumn(b, num).value;
      }
    } else {
      assert (a + b)[0] == a[0];
      assert (a + b)[1..] == a[1..] + b;
      ParseColumnConcat(a[1..], b, num);
      var ra := ParseColumn(a[1..], num);
      var rb := ParseColumn(b, num);
      if a[0] != "" && num.parse(a[0]).Some? && ra.Ok? && rb.Ok? {
        var v := num.parse(a[0]).value;
        assert [v] + (ra.value + rb.value) == ([v] + ra.value) + rb.value;
      }
    }
  }

  /** Each column drops its empty entries on its own before rows are paired:
      the table behaves exactly like its three filtered columns, so a blank
      humidity cell shifts every later humidity up one row. */
  lemma PlanPairsFilteredColumns(temperatures: seq<string>, humidities: seq<string>,
                                 holdTimes: seq<string>, num: NumberSyntax)
    ensures Plan(temperatures, humidities, holdTimes, num)
         == Plan(Filled(temperatures), Filled(humidities), Filled(holdTimes), num)
  {
    ParseColumnOfFilled(temperatures, num);
    ParseColumnOfFilled(humidities, num);
    ParseColumnOfFilled(holdTimes, num);
    PlanOfParses(temperatures, humidities, holdTimes,
                 Filled(temperatures), Filled(humidities), Filled(holdTimes), num);
  }

  /** The plan depends on the columns only through their parses. */
  lemma PlanOfParses(t1: seq<string>, h1: seq<string>, ht1: seq<string>,
                     t2: seq<string>, h2: seq<string>, ht2: seq<string>, num: NumberSyntax)
    requires ParseColumn(t1, num) == ParseColumn(t2, num)
    requires ParseColumn(h1, num) == ParseColumn(h2, num)
    requires ParseColumn(ht1, num) == ParseColumn(ht2, num)
    ensures Plan(t1, h1, ht1, num) == Plan(t2, h2, ht2, num)
  {
  }

  /** Surplus numeric humidity entries beyond those the temperatures use are
      parsed and then ignored. */
  lemma PlanIgnoresSurplusHumidities(temperatures: seq<string>, humidities: seq<string>,
                                     extra: seq<string>, holdTimes: seq<string>, num: NumberSyntax)
    requires Numeric(extra, num)
    requires |Filled(humidities)| >= |Filled(temperatures)|
    ensures Plan(temperatures, humidities + extra, holdTimes, num)
         == Plan(temperatures, humidities, holdTimes, num)
  {
    ParseColumnConcat(humidities, extra, num);
    var rt := ParseColumn(temperatures, num);
    var rh := ParseColumn(humidities, num);
    var rht := ParseColumn(holdTimes, num);
    if rt.Ok? && rh.Ok? && rht.Ok? && |rht.value| >= |rt.value| {
      var xs := ParseColumn(extra, num).value;
      assert Rows(rt.value, rh.value + xs, rht.value) == Rows(rt.value, rh.value, rht.value);
    }
  }

  /** Surplus numeric hold-time entries beyond those the temperatures use are
      parsed and then ignored. */
  lemma PlanIgnoresSurplusHoldTimes(temperatures: seq<string>, humidities: seq<string>,
                                    holdTimes: seq<string>, extra: seq<string>, num: NumberSyntax)
    requires Numeric(extra, num)
    requires |Filled(holdTimes)| >= |Filled(temperatures)|
    ensures Plan(temperatures, humidities, holdTimes + extra, num)
         == Plan(temperatures, humidities, holdTimes, num)
  {
    ParseColumnConcat(holdTimes, extra, num);
    var rt := ParseColumn(temperatures, num);
    var rh := ParseColumn(humidities, num);
    var rht := ParseColumn(holdTimes, num);
    if rt.Ok? && rh.Ok? && rht.Ok? && |rh.value| >= |rt.value| {
      var xs := ParseColumn(extra, num).value;
      assert Rows(rt.value, rh.value, rht.value + xs) == Rows(rt.value, rh.value, rht.value);
    }
  }

  /** A rendered row splits on commas into its three renderings, in the order
      temperature, humidity, hold time. */
  lemma RenderRowFields(sp: Setpoint, num: NumberSyntax)
    requires Separatorless(num)
    ensures Split(RenderRow(sp, num), ',')
         == [num.render(sp.temperature), num.render(sp.humidity), num.render(sp.holdTime)]
    ensures '\n' !in RenderRow(sp, num)
  {
    var parts := [num.render(sp.temperature), num.render(sp.humidity), num.render(sp.holdTime)];
    SplitJoin(parts, ',');
    JoinAvoids(parts, ',', '\n');
  }

  /** The shape of a non-empty payload: one line per setpoint, in order, each
      line three comma-separated renderings, and no trailing newline. */
  lemma SerializeLayout(temperatures: seq<string>, humidities: seq<string>, holdTimes: seq<string>,
                        num: NumberSyntax)
    requires Separatorless(num)
    requires Serialize(temperatures, humidities, holdTimes, num).Ok?
    requires |Filled(temperatures)| > 0
    ensures var payload := Serialize(temperatures, humidities, holdTimes, num).value;
            var sps := Plan(temperatures, humidities, holdTimes, num).value;
            && Split(payload, '\n') == RenderRows(sps, num)
            && |Split(payload, '\n')| == |Filled(temperatures)|
            && (forall i :: 0 <= i < |sps| ==>
                  Split(Split(payload, '\n')[i], ',')
                    == [num.render(sps[i].temperature), num.render(sps[i].humidity),
                        num.render(sps[i].holdTime)])
            && payload[|payload| - 1] != '\n'
  {
    var sps := Plan(temperatures, humidities, holdTimes, num).value;
    var rows := RenderRows(sps, num);
    forall i | 0 <= i < |sps|
      ensures '\n' !in rows[i]
      ensures Split(rows[i], ',')
           == [num.render(sps[i].temperature), num.render(sps[i].humidity), num.render(sps[i].holdTime)]
    {
      RenderRowFields(sps[i], num);
    }
    SplitJoin(rows, '\n');
    var last := sps[|sps| - 1];
    assert rows[|rows| - 1] == RenderRow(last, num);
    assert |RenderRow(last, num)| > 0 by {
      assert Split(RenderRow(last, num), ',') != [""];
    }
    JoinLastChar(rows, '\n');
  }

  /** Rendered rows read back to the setpoints they came from, provided every
      value re-parses from its own rendering. */
  lemma {:induction false} DecodeRenderedRows(sps: seq<Setpoint>, num: NumberSyntax)
    requires Separatorless(num)
    requires forall i :: 0 <= i < |sps| ==>
               && num.parse(num.render(sps[i].temperature)) == Some(sps[i].temperature)
               && num.parse(num.render(sps[i].humidity)) == Some(sps[i].humidity)
               && num.parse(num.render(sps[i].holdTime)) == Some(sps[i].holdTime)
    ensures DecodeRows(RenderRows(sps, num), num) == Some(sps)
    decreases |sps|
  {
    if |sps| > 0 {
      RenderRowFields(sps[0], num);
      assert RenderRows(sps, num)[1..] == RenderRows(sps[1..], num);
      DecodeRenderedRows(sps[1..], num);
      assert [sps[0]] + sps[1..] == sps;
    }
  }

  /** Round trip: splitting the payload into lines and each line on commas,
      and parsing the fields, gives back exactly the setpoints the table held,
      assuming `str()` never produces a separator and re-parses to the value
      `float()` produced. An empty temperature column gives the empty payload,
      which reads back as no setpoints. */
  lemma SerializeRoundTrip(temperatures: seq<string>, humidities: seq<string>, holdTimes: seq<string>,
                           num: NumberSyntax)
    requires Separatorless(num) && ReprRoundTrips(num)
    requires Serialize(temperatures, humidities, holdTimes, num).Ok?
    ensures DecodePayload(Serialize(temperatures, humidities, holdTimes, num).value, num)
         == Some(Plan(temperatures, humidities, holdTimes, num).value)
  {
    var sps := Plan(temperatures, humidities, holdTimes, num).value;
    forall i | 0 <= i < |sps|
      ensures num.parse(num.render(sps[i].temperature)) == Some(sps[i].temperature)
      ensures num.parse(num.render(sps[i].humidity)) == Some(sps[i].humidity)
      ensures num.parse(num.render(sps[i].holdTime)) == Some(sps[i].holdTime)
    {
      assert num.parse(Filled(temperatures)[i]).Some?;
      assert num.parse(Filled(humidities)[i]).Some?;
      assert num.parse(Filled(holdTimes)[i]).Some?;
    }
    if |sps| > 0 {
      SerializeLayout(temperatures, humidities, holdTimes, num);
      DecodeRenderedRows(sps, num);
    }
  }
}

=== FILE: telemetry.dfy ===
/** The telemetry frame decoder at the top of each animation tick: one line
    from the serial port, ASCII-decoded, split on commas, field 0 the air
    temperature (rounded to hundredths) and field 2 the relative humidity. */
module Telemetry {
  import opened Results
  import opened Floats
  import opened Text

  type byte = b: int | 0 <= b < 256

  /** One decoded frame. The material temperature in field 1 is not read. */
  datatype Reading = Reading(airTemp: Float, humidity: Float)

  /** The exception that ends a tick before anything is recorded:
      UnicodeDecodeError, ValueError from `float()` on the named field, or
      IndexError when there is no field 2. */
  datatype FrameError =
    | NotAscii
    | FieldNotNumeric(field: nat)
    | TooFewFields(count: nat)

  /** `bytes.decode("ascii")`: every byte below 128 maps to the character with
      that code; any other byte makes the decode fail. */
  function DecodeAscii(bytes: seq<byte>): (r: Option<string>)
    ensures r.Some? <==> forall i :: 0 <= i < |bytes| ==> bytes[i] < 128
    ensures r.Some? ==> |r.value| == |bytes|
    ensures r.Some? ==> forall i :: 0 <= i < |bytes| ==> r.value[i] as int == bytes[i]
  {
    if |bytes| == 0 then Some([])
    else if bytes[0] >= 128 then None
    else match DecodeAscii(bytes[1..])
      case None => None
      case Some(rest) => Some([bytes[0] as char] + rest)
  }

  /** The decoding steps after the line has become text, in the order the
      script performs them: `float(data[0])`, then `data[2]`, then
      `float(data[2])`. */
  function DecodeText(text: string, num: NumberSyntax): (r: Result<Reading, FrameError>)
    ensures r.Ok? <==>
              && num.parse(Split(text, ',')[0]).Some?
              && |Split(text, ',')| >= 3
              && num.parse(Split(text, ',')[2]).Some?
    ensures r.Err? ==> r.error.FieldNotNumeric? || r.error.TooFewFields?
    ensures r == Err(FieldNotNumeric(0)) <==> num.parse(Split(text, ',')[0]).None?
    ensures r.Err? && r.error.TooFewFields? <==>
              num.parse(Split(text, ',')[0]).Some? && |Split(text, ',')| < 3
    ensures r.Err? && r.error.TooFewFields? ==> r.error.count == |Split(text, ',')|
    ensures r == Err(FieldNotNumeric(2)) <==>
              && num.parse(Split(text, ',')[0]).Some?
              && |Split(text, ',')| >= 3
              && num.parse(Split(text, ',')[2]).None?
    ensures r.Ok? ==>
              r.value == Reading(Round2(num.parse(Split(text, ',')[0]).value),
                                 num.parse(Split(text, ',')[2]).value)
  {
    var fields := Split(text, ',');
    match num.parse(fields[0])
    case None => Err(FieldNotNumeric(0))
    case Some(air) =>
      if |fields| < 3 then Err(TooFewFields(|fields|))
      else match num.parse(fields[2])
        case None => Err(FieldNotNumeric(2))
        case Some(humidity) => Ok(Reading(Round2(air), humidity))
  }

  /** One received line, bytes to reading. */
  function DecodeFrame(line: seq<byte>, num: NumberSyntax): (r: Result<Reading, FrameError>)
    ensures r == Err(NotAscii) <==> exists i :: 0 <= i < |line| && line[i] >= 128
    ensures DecodeAscii(line).Some? ==> r == DecodeText(DecodeAscii(line).value, num)
  {
    match DecodeAscii(line)
    case None => Err(NotAscii)
    case Some(text) => DecodeText(text, num)
  }

  /** A frame `air,material,humidity[,more...]` reads as the rounded air
      temperature and the humidity, whatever the material field and any
      further fields hold. */
  lemma DecodeWellFormed(air: string, material: string, humidity: string, more: seq<string>,
                         num: NumberSyntax)
    requires Separated([air, material, humidity] + more, ',')
    requires num.parse(air).Some? && num.parse(humidity).Some?
    ensures DecodeText(Join([air, material, humidity] + more, ','), num)
         == Ok(Reading(Round2(num.parse(air).value), num.parse(humidity).value))
  {
    SplitJoin([air, material, humidity] + more, ',');
  }

  /** Field 1 and every field after field 2 are ignored: two frames that agree
      on fields 0 and 2 decode alike. */
  lemma DecodeIgnoresOtherFields(fields1: seq<string>, fields2: seq<string>, num: NumberSyntax)
    requires |fields1| >= 3 && |fields2| >= 3
    requires Separated(fields1, ',') && Separated(fields2, ',')
    requires fields1[0] == fields2[0] && fields1[2] == fields2[2]
    ensures DecodeText(Join(fields1, ','), num) == DecodeText(Join(fields2, ','), num)
  {
    SplitJoin(fields1, ',');
    SplitJoin(fields2, ',');
  }

  /** A frame with fewer than three fields and a numeric field 0 fails with
      IndexError, carrying the field count. */
  lemma DecodeShortFrame(fields: seq<string>, num: NumberSyntax)
    requires 1 <= |fields| < 3
    requires Separated(fields, ',')
    requires num.parse(fields[0]).Some?
    ensures DecodeText(Join(fields, ','), num) == Err(TooFewFields(|fields|))
  {
    SplitJoin(fields, ',');
  }
}

=== FILE: text.dfy ===
/** Python's `str.split(sep)` and `sep.join(parts)` for a one-character
    separator, and the facts that make them inverse to each other. */
module Text {

  /** `s.split(sep)`: always at least one piece; empty pieces are kept, so
      `"".split(",") == [""]` and `",".split(",") == ["", ""]`. */
  function Split(s: string, sep: char): (parts: seq<string>)
    ensures |parts| >= 1
    ensures Separated(parts, sep)
    ensures Join(parts, sep) == s
    decreases |s|
  {
    if |s| == 0 then [""]
    else
      var rest := Split(s[1..], sep);
      if s[0] == sep then
        assert Join([""] + rest, sep) == [sep] + Join(rest, sep);
        assert [sep] + s[1..] == s;
        [""] + rest
      else
        var parts := [[s[0]] + rest[0]] + rest[1..];
        assert |rest| >= 2 ==> Join(rest, sep) == rest[0] + [sep] + Join(rest[1..], sep);
        assert parts[1..] == rest[1..];
        assert [s[0]] + s[1..] == s;
        parts
  }

  /** `sep.join(parts)`: the empty list joins to the empty string and there is
      no separator after the last piece. */
  function Join(parts: seq<string>, sep: char): string
  {
    if |parts| == 0 then ""
    else if |parts| == 1 then parts[0]
    else parts[0] + [sep] + Join(parts[1..], sep)
  }

  /** A join whose first piece is non-empty is non-empty. */
  lemma JoinNonEmpty(parts: seq<string>, sep: char)
    requires |parts| >= 1 && |parts[0]| > 0
    ensures |Join(parts, sep)| > 0
  {
  }

  /** No piece of `parts` contains the separator. */
  predicate Separated(parts: seq<string>, sep: char)
  {
    forall i :: 0 <= i < |parts| ==> sep !in parts[i]
  }

  /** A string without the separator splits into itself. */
  lemma {:induction false} SplitWithoutSeparator(p: string, sep: char)
    requires sep !in p
    ensures Split(p, sep) == [p]
    decreases |p|
  {
    if |p| > 0 {
      SplitWithoutSeparator(p[1..], sep);
      assert [p[0]] + p[1..] == p;
    }
  }

  /** Splitting stops at the first separator and carries on after it. */
  lemma {:induction false} SplitAtFirstSeparator(p: string, sep: char, rest: string)
    requires sep !in p
    ensures Split(p + [sep] + rest, sep) == [p] + Split(rest, sep)
    decreases |p|
  {
    var s := p + [sep] + rest;
    if |p| == 0 {
      assert s[0] == sep && s[1..] == rest;
    } else {
      assert s[0] == p[0] && s[1..] == p[1..] + [sep] + rest;
      SplitAtFirstSeparator(p[1..], sep, rest);
      assert [p[0]] + p[1..] == p;
    }
  }

  /** Joining pieces free of the separator and splitting again gives the
      pieces back: `sep.join(ps).split(sep) == ps` whenever `ps` is not empty. */
  lemma {:induction false} SplitJoin(parts: seq<string>, sep: char)
    requires |parts| >= 1
    requires Separated(parts, sep)
    ensures Split(Join(parts, sep), sep) == parts
    decreases |parts|
  {
    if |parts| == 1 {
      SplitWithoutSeparator(parts[0], sep);
    } else {
      SplitJoin(parts[1..], sep);
      SplitAtFirstSeparator(parts[0], sep, Join(parts[1..], sep));
      assert [parts[0]] + parts[1..] == parts;
    }
  }

  /** A join whose last piece is non-empty and free of the separator ends in
      that piece's last character, so never in a trailing separator. */
  lemma {:induction false} JoinLastChar(parts: seq<string>, sep: char)
    requires |parts| >= 1
    requires Separated(parts, sep)
    requires |parts[|parts| - 1]| > 0
    ensures |Join(parts, sep)| > 0
    ensures Join(parts, sep)[|Join(parts, sep)| - 1] != sep
    decreases |parts|
  {
    if |parts| > 1 {
      JoinLastChar(parts[1..], sep);
    }
  }

  /** A character other than the separator occurs in a join only if it occurs
      in one of the pieces. */
  lemma {:induction false} JoinAvoids(parts: seq<string>, sep: char, c: char)
    requires c != sep
    requires forall i :: 0 <= i < |parts| ==> c !in parts[i]
    ensures c !in Join(parts, sep)
    decreases |parts|
  {
    if |parts| > 1 {
      JoinAvoids(parts[1..], sep, c);
    }
  }
}
